=== FILE: README.md ===
# smart-mail-helper — a Dafny model of the dashboard's logic

The application is a support-email dashboard: a constant corpus of five
classified emails, a hand-written analytics summary, a searchable and
filterable email list, and a response editor whose "regenerate" button fills
in a templated reply after a delay. This project models the parts of it that
are logic rather than presentation:

- `text.dfy` — `Text`: the JavaScript string operations the components use
  (`toLowerCase`, `includes`, `trim`, `split('@')[0]`) as Dafny functions.
- `email_types.dfy` — `EmailTypes`: an `Option` type for the optional fields,
  the `Email`, `ContactInfo` and `Analytics` records, the `priority` and
  `sentiment` enumerations and their string spellings.
- `email_list.dfy` — `EmailList`: the `filteredEmails` query (search term over
  subject, sender and body, AND priority selector), the selector buttons and
  the "No emails found" condition.
- `response_editor.dfy` — `ResponseEditor`: the editor state
  (`response`, `isGenerating`), its events (edit, start and finish of a
  regeneration, copy, save), the enable guards of every control and the
  regeneration template.
- `email_dashboard.dfy` — `EmailDashboard`: the page state (`view`,
  `selectedEmail`), its transitions, the render dispatch, the three-card
  preview, the badge colour mappings and the two chart series.
- `mock_emails.dfy` — `MockEmails`: the constant corpus and the hard-coded
  summary, the counts the summary stands for, and the facts that tie the two
  together.

The regeneration timer is two discrete events: `StartRegenerate` (the click)
and `FinishRegenerate` (the callback). The timer callback exists only while a
regeneration is pending, so `FinishRegenerate` acts only while `isGenerating`
holds. A control that the page disables ignores its event, and a page-level
event acts only when the screen that carries its button is rendered.

`trim` strips JavaScript's full whitespace set (the WhiteSpace and
LineTerminator characters of ECMAScript), written out character by character.

All state is immutable values and every operation is a pure function, so the
filter cannot alter the list it is given.

Three facts about the application shape the model:
- The summary is a constant written next to the corpus and is never
  computed. The model defines the counts it stands for and proves that the
  constant equals them.
- Regeneration always succeeds and cannot be cancelled, so there is no
  failure state.
- Send is enabled only when the trimmed text is non-empty. Save itself
  checks nothing, so that condition is the Send button's guard.

## Model

| member | source | states |
|---|---|---|
| Text.ContainsIff | src/components/EmailList.tsx:20-22 | the left-to-right `includes` scan succeeds exactly when the needle occurs at some start index of the haystack |
| Text.TrimEmptyIff | src/components/ResponseEditor.tsx:219 | `trim()` yields the empty string exactly when every character is JavaScript whitespace |
| Text.Lower | src/components/EmailList.tsx:20-22 | `toLowerCase` keeps the length, turns each of 'A'..'Z' into the matching 'a'..'z', and keeps every other character in place |
| Text.Contains | src/components/EmailList.tsx:20-22 | `includes` finds only needles no longer than the haystack; Text.ContainsIff gives its full meaning |
| Text.Trim | src/components/ResponseEditor.tsx:219 | `trim()` returns an infix of the text preceded and followed only by whitespace, whose first and last characters are not whitespace; Text.TrimEmptyIff says when it is empty |
| Text.LowerIdempotent | src/components/EmailList.tsx:20-22 | lower-casing twice equals lower-casing once, and a text without upper-case letters is unchanged |
| Text.LowerKeepsOccurrence | src/components/EmailList.tsx:20-22 | a word occurring in the text is found by the case-insensitive search for that word |
| Text.ContainsFromOccurrence | src/components/EmailList.tsx:20-22 | a needle that sits at some start index of the haystack is found by `includes` |
| Text.HasContentAt | src/components/ResponseEditor.tsx:219 | a text with one non-whitespace character survives `trim()` non-empty |
| Text.LocalPart | src/components/ResponseEditor.tsx:45 | `split('@')[0]` is a prefix of the sender with no '@', followed in the sender by an '@' when it is shorter |
| Text.LocalPartWithoutAt | src/components/ResponseEditor.tsx:45 | a sender without '@' is its own local part |
| Text.LocalPartBeforeFirstAt | src/components/ResponseEditor.tsx:45 | with an '@' at index k and none before it, the local part is exactly the first k characters |
| EmailTypes.ParsePriority | src/types/email.ts:7 | a string reads as a priority exactly when it is one of "urgent", "high", "medium", "low" |
| EmailTypes.ParseSentiment | src/types/email.ts:8 | a string reads as a sentiment exactly when it is one of "positive", "neutral", "negative" |
| EmailTypes.PriorityNameRoundTrip | src/types/email.ts:7 | each priority's literal reads back as that priority, and only that literal does |
| EmailTypes.SentimentNameRoundTrip | src/types/email.ts:8 | each sentiment's literal reads back as that sentiment, and only that literal does |
| EmailTypes.PriorityNameInjective | src/types/email.ts:7 | the four priority literals are pairwise distinct |
| EmailList.FilterEmails | src/components/EmailList.tsx:19-25 | the result is no longer than the list and every email in it matches both the lower-cased search and the selector |
| EmailList.FilterIsSubsequence | src/components/EmailList.tsx:19-25 | the result is an order-preserving subsequence of the list |
| EmailList.FilterCounts | src/components/EmailList.tsx:19-25 | each email occurs in the result as often as in the list when it matches, and not at all otherwise |
| EmailList.FilterMembership | src/components/EmailList.tsx:19-24 | an email is in the result iff it is in the list and matches the search (subject OR sender OR body) AND the selector |
| EmailList.FilterComplete | src/components/EmailList.tsx:19-25 | every list position whose email matches reaches the result |
| EmailList.NoEmailsFoundIff | src/components/EmailList.tsx:152 | the "No emails found" card shows exactly when no email of the list matches |
| EmailList.FilterIdempotent | src/components/EmailList.tsx:19-25 | re-filtering the result with the same term and selector returns it unchanged |
| EmailList.FilterAppend | src/components/EmailList.tsx:19-25 | filtering a concatenation concatenates the filtered parts, so list order is kept |
| EmailList.FilterEverything | src/components/EmailList.tsx:20-23 | the empty term with selector "all" returns the list itself |
| EmailList.FilterCaseInsensitive | src/components/EmailList.tsx:20-22 | two terms with the same lower-cased form give the same result |
| EmailList.AllSelectorUnrestricted | src/components/EmailList.tsx:23 | under "all" an email is kept iff it is in the list and matches the search alone |
| EmailList.PrioritySelectorExact | src/components/EmailList.tsx:23 | under a priority's button an email is kept iff it matches the search and has exactly that priority |
| EmailList.PriorityFiltersAreAllAndPriorities | src/components/EmailList.tsx:78 | the selector buttons are exactly "all" and the four priority literals |
| ResponseEditor.Init | src/components/ResponseEditor.tsx:18-19 | the editor opens on the stored draft, or on "" when there is none, not generating |
| ResponseEditor.InitWithoutDraft | src/components/ResponseEditor.tsx:18 | a missing draft and an empty draft open the same empty editor, with Copy and Send disabled |
| ResponseEditor.RegeneratedResponse | src/components/ResponseEditor.tsx:45 | the template starts with "Hello " and the sender's local part and a comma, holds the subject in double quotes at a fixed offset, and has non-whitespace content |
| ResponseEditor.GreetingLocalPart | src/components/ResponseEditor.tsx:45 | the greeting names the text before the first '@', or the whole sender when it has no '@' |
| ResponseEditor.Step | src/components/ResponseEditor.tsx:41-69 | only edits and the timer change the text; a save hands over exactly the current text and only when Send is enabled; a copy hands over a non-empty text |
| ResponseEditor.StartRegenerateSpec | src/components/ResponseEditor.tsx:41-42 | Regenerate sets generating and keeps the text; while generating the disabled button changes nothing |
| ResponseEditor.RegenerateRoundTrip | src/components/ResponseEditor.tsx:41-53 | start then timer from an idle editor installs the template, ends generation and enables Send |
| ResponseEditor.GeneratingFreezesResponse | src/components/ResponseEditor.tsx:198-204 | while a regeneration is pending, no sequence of events other than the timer changes the state |
| ResponseEditor.EditWhileIdle | src/components/ResponseEditor.tsx:200-208 | an edit while idle installs the typed text and the counter shows its length |
| ResponseEditor.SendEnabledIff | src/components/ResponseEditor.tsx:217-219 | Send is enabled iff the text has a non-whitespace character and no regeneration is pending |
| ResponseEditor.SaveSpec | src/components/ResponseEditor.tsx:63-69 | save passes the current text to the callback unchanged and leaves the editor as it was; a disabled Send does nothing |
| ResponseEditor.CopySpec | src/components/ResponseEditor.tsx:55-56 | an enabled Copy hands the current text to the clipboard and leaves the editor unchanged; a disabled Copy does nothing |
| ResponseEditor.CopyVersusSend | src/components/ResponseEditor.tsx:176-224 | whatever can be sent can be copied, and a non-empty whitespace-only text can be copied but not sent |
| EmailDashboard.Render | src/components/EmailDashboard.tsx:53-80 | the list shows for view emails, the editor for view editor with a selection, the dashboard in every other state |
| EmailDashboard.Preview | src/components/EmailDashboard.tsx:206 | the preview holds the first min(3, n) emails in corpus order |
| EmailDashboard.Step | src/components/EmailDashboard.tsx:53-257 | only the two selection events change the selection, and a changed selection is a corpus email shown in the editor view |
| EmailDashboard.InitInv | src/components/EmailDashboard.tsx:20-21 | the page starts on the dashboard with nothing selected |
| EmailDashboard.StepPreservesInv | src/components/EmailDashboard.tsx:57-60 | every transition keeps "view editor implies a corpus email is selected" |
| EmailDashboard.ReachableInv | src/components/EmailDashboard.tsx:53-78 | after any event sequence the invariant holds and the editor view always renders the editor |
| EmailDashboard.SelectOpensEditor | src/components/EmailDashboard.tsx:242-245 | selecting from the list or replying to a preview card selects that email and opens the editor |
| EmailDashboard.BackAndSaveTargets | src/components/EmailDashboard.tsx:61-75 | list back goes to the dashboard; editor back and save go to the list; both "view" buttons go to the list; none changes the selection |
| EmailDashboard.EditorSaveReturnsToList | src/components/EmailDashboard.tsx:71-75 | an enabled save hands over the editor's text and the page returns to the list |
| EmailDashboard.PriorityColor | src/components/EmailDashboard.tsx:34-42 | the class is "muted" exactly for strings that are not priority literals |
| EmailDashboard.SentimentColor | src/components/EmailDashboard.tsx:44-51 | the class is "muted" exactly for strings that are not sentiment literals |
| EmailDashboard.PriorityColorInjective | src/components/EmailDashboard.tsx:34-42 | distinct priorities get distinct, non-muted classes |
| EmailDashboard.SentimentColorInjective | src/components/EmailDashboard.tsx:44-51 | distinct sentiments get distinct, non-muted classes |
| EmailDashboard.PriorityData | src/components/EmailDashboard.tsx:29-32 | the bar chart has an Urgent and a Non-Urgent bar whose heights sum to urgent plus non-urgent |
| EmailDashboard.SentimentData | src/components/EmailDashboard.tsx:23-27 | the pie chart has a Positive, a Neutral and a Negative slice in three distinct colours, summing to the three breakdown counters |
| MockEmails.PriorityCountIsButtonCount | src/components/EmailList.tsx:19-25 | for any corpus, the count of a priority equals the length of the list shown under that priority's button with an empty search |
| MockEmails.ChartEntriesShowCounts | src/components/EmailDashboard.tsx:23-32 | under a summary consistent with any corpus, the Urgent bar shows the urgent emails, the Non-Urgent bar the rest, and each sentiment's slice that sentiment's count in that sentiment's colour |
| MockEmails.PriorityPartition | src/data/mockEmails.ts:83-84 | for any corpus, the emails with and without a priority together number the corpus size |
| MockEmails.SentimentPartition | src/data/mockEmails.ts:85-89 | for any corpus, the three sentiment counts sum to the corpus size |
| MockEmails.ConsistentChartsSumToTotal | src/components/EmailDashboard.tsx:23-32 | for a summary consistent with a corpus, each chart's values sum to the total |
| MockEmails.MockAnalyticsConsistent | src/data/mockEmails.ts:81-91 | the hard-coded total, urgent/non-urgent pair and sentiment counts equal the counts over the corpus, and both charts sum to 5 |
| MockEmails.MockEmailIds | src/data/mockEmails.ts:3-79 | the corpus has five records with ids "1" to "5", pairwise distinct |
| MockEmails.MockEmailDrafts | src/data/mockEmails.ts:3-79 | every record has a non-empty draft and a contact address equal to its sender, so the editor opens with Copy enabled |
| MockEmails.MockPreview | src/components/EmailDashboard.tsx:206 | the preview of the corpus is records "1", "2", "3" |
| MockEmails.UrgentFilterOnMock | src/data/mockEmails.ts:3-79 | the "urgent" button with an empty search yields exactly record "1" |
| MockEmails.ApiSearchFindsRecord2 | src/data/mockEmails.ts:23 | searching "api" under "all" keeps record "2", matched by its subject |

## Left out

- JSX rendering, Tailwind classes, recharts widgets and icons: presentation with no logic.
- The badge class functions inside the list and the editor components: they return longer Tailwind class strings for the same case split. Only the dashboard's two mapping functions are modelled.
- Toasts, the clipboard write and the `console.log` in the save callback: side channels. Copy and save are modelled as effects that carry the text.
- The 2000 ms delay of the regeneration timer: the model keeps only its two events. A timer firing after the editor has been left is not modelled.
- `Date`, `toLocaleDateString` and `last24Hours`: the date is kept as its ISO text and nothing reads it. The recency count is a constant that cannot be derived without a current time, so the consistency check skips it.
- The "98%" response rate and the pie-label percentage: hard-coded or floating-point display.
- `toLowerCase` folds only ASCII letters here. JavaScript folds all of Unicode.
- ResponseEditor.EditWhileIdle: the counter is the number of Dafny characters (Unicode scalar values). JavaScript's `length` counts UTF-16 code units, so the two differ for characters outside the Basic Multilingual Plane.
- MockEmails.ApiSearchFindsRecord2: proves that record "2" is in the result but not that the other four are absent. Refuting a substring search over the 200-character literal bodies exceeds the verifier's budget.
- EmailDashboard.Step: a list selection is accepted for any corpus email. The real list offers only the emails that pass its current search, and the search and selector state inside the list component is not part of the page state.
- Failure, timeout and cancellation of regeneration: the code only ever succeeds.

=== FILE: email_dashboard.dfy ===
/** The dashboard page: which of the three screens is shown, the email picked
    for a reply, the preview of the first emails, the two chart series and
    the badge colour mappings. */
module EmailDashboard {
  import opened EmailTypes
  import ResponseEditor

  datatype View = DashboardView | EmailsView | EditorView

  /** `view` together with `selectedEmail` (null modelled as `None`). */
  datatype NavState = NavState(view: View, selected: Option<Email>)

  /** The component the page renders. */
  datatype Screen = DashboardScreen | ListScreen | EditorScreen(email: Email)

  datatype NavEvent =
    | ViewEmails                  // header button on the dashboard
    | ViewAllEmails               // button under the preview
    | Reply(index: nat)           // Reply on the index-th preview card
    | SelectEmail(email: Email)   // a card's button in the list
    | ListBack                    // back arrow of the list
    | EditorBack                  // back arrow or Cancel in the editor
    | EditorSave(response: string) // the editor's save callback

  /** The page opens on the dashboard with nothing selected. */
  const Init: NavState := NavState(DashboardView, None)

  /** Which component is shown: the list for the emails view, the editor
      when the editor view has an email to show, the dashboard otherwise. */
  function Render(s: NavState): (r: Screen)
    ensures r == ListScreen <==> s.view == EmailsView
    ensures r.EditorScreen? <==> s.view == EditorView && s.selected.Some?
    ensures r.EditorScreen? ==> Some(r.email) == s.selected
    ensures r == DashboardScreen <==> s.view.DashboardView? || (s.view.EditorView? && s.selected.None?)
  {
    if s.view == EmailsView then ListScreen
    else if s.view == EditorView && s.selected.Some? then EditorScreen(s.selected.value)
    else DashboardScreen
  }

  function Min(a: int, b: int): int {
    if a <= b then a else b
  }

  /** The "Recent Support Emails" cards: the first three emails, or all of
      them when there are fewer. */
  function Preview(corpus: seq<Email>): (r: seq<Email>)
    ensures |r| == Min(3, |corpus|)
    ensures forall i :: 0 <= i < |r| ==> r[i] == corpus[i]
  {
    corpus[..Min(3, |corpus|)]
  }

  /** One event. A control acts only when its screen is the one rendered; a
      list card offers only emails of the corpus, and Reply only the preview
      cards. Nothing but Reply and SelectEmail touches the selection. */
  function Step(corpus: seq<Email>, s: NavState, ev: NavEvent): (t: NavState)
    ensures !ev.Reply? && !ev.SelectEmail? ==> t.selected == s.selected
    ensures t.view == EditorView && s.view != EditorView ==> t.selected.Some?
    ensures t.selected != s.selected ==> t.view == EditorView && t.selected.Some? && t.selected.value in corpus
  {
    var screen := Render(s);
    match ev
    case ViewEmails =>
      if screen == DashboardScreen then s.(view := EmailsView) else s
    case ViewAllEmails =>
      if screen == DashboardScreen then s.(view := EmailsView) else s
    case Reply(i) =>
      var cards := Preview(corpus);
      if screen == DashboardScreen && i < |cards| then NavState(EditorView, Some(cards[i])) else s
    case SelectEmail(e) =>
      if screen == ListScreen && e in corpus then NavState(EditorView, Some(e)) else s
    case ListBack =>
      if screen == ListScreen then s.(view := DashboardView) else s
    case EditorBack =>
      if screen.EditorScreen? then s.(view := EmailsView) else s
    case EditorSave(_) =>
      if screen.EditorScreen? then s.(view := EmailsView) else s
  }

  function Run(corpus: seq<Email>, s: NavState, evs: seq<NavEvent>): NavState
    decreases |evs|
  {
    if evs == [] then s else Run(corpus, Step(corpus, s, evs[0]), evs[1..])
  }

  // ---------------------------------------------------------------------------
  // Reachability invariant
  // ---------------------------------------------------------------------------

  /** The editor view always has an email, and that email is one of the
      corpus. */
  predicate Inv(corpus: seq<Email>, s: NavState) {
    && (s.view == EditorView ==> s.selected.Some?)
    && (s.selected.Some? ==> s.selected.value in corpus)
  }

  lemma StepPreservesInv(corpus: seq<Email>, s: NavState, ev: NavEvent)
    requires Inv(corpus, s)
    ensures Inv(corpus, Step(corpus, s, ev))
  {
  }

  /** Every state reached from the initial one satisfies the invariant, so
      the editor view never falls back to the dashboard for lack of an
      email. */
  lemma {:induction false} ReachableInv(corpus: seq<Email>, s: NavState, evs: seq<NavEvent>)
    requires Inv(corpus, s)
    ensures Inv(corpus, Run(corpus, s, evs))
    ensures Run(corpus, s, evs).view == EditorView ==> Render(Run(corpus, s, evs)).EditorScreen?
    decreases |evs|
  {
    if evs != [] {
      StepPreservesInv(corpus, s, evs[0]);
      ReachableInv(corpus, Step(corpus, s, evs[0]), evs[1..]);
    }
  }

  lemma InitInv(corpus: seq<Email>)
    ensures Inv(corpus, Init) && Render(Init) == DashboardScreen
  {
  }

  // ---------------------------------------------------------------------------
  // Individual transitions
  // ---------------------------------------------------------------------------

  /** Picking an email, from the list or from a preview card, opens the editor
      on it. */
  lemma SelectOpensEditor(corpus: seq<Email>, s: NavState, e: Email, i: nat)
    ensures Render(s) == ListScreen && e in corpus
        ==> Step(corpus, s, SelectEmail(e)) == NavState(EditorView, Some(e))
    ensures Render(s) == DashboardScreen && i < |corpus| && i < 3
        ==> Step(corpus, s, Reply(i)) == NavState(EditorView, Some(corpus[i]))
  {
  }

  /** The back arrows, the save callback and the two "view" buttons each move
      to one fixed view and keep the selection. */
  lemma BackAndSaveTargets(corpus: seq<Email>, s: NavState, response: string)
    ensures Render(s) == ListScreen ==> Step(corpus, s, ListBack) == s.(view := DashboardView)
    ensures Render(s).EditorScreen? ==> Step(corpus, s, EditorBack) == s.(view := EmailsView)
    ensures Render(s).EditorScreen? ==> Step(corpus, s, EditorSave(response)) == s.(view := EmailsView)
    ensures Render(s) == DashboardScreen ==> Step(corpus, s, ViewEmails) == s.(view := EmailsView)
    ensures Render(s) == DashboardScreen ==> Step(corpus, s, ViewAllEmails) == s.(view := EmailsView)
  {
  }

  /** A save the editor lets through returns the page to the list, with the
      saved text being exactly the editor's text. */
  lemma EditorSaveReturnsToList(corpus: seq<Email>, s: NavState, es: ResponseEditor.EditorState)
    requires Render(s).EditorScreen?
    requires ResponseEditor.SendEnabled(es)
    ensures ResponseEditor.Step(Render(s).email, es, ResponseEditor.Save)
         == (es, ResponseEditor.Saved(es.response))
    ensures Render(Step(corpus, s, EditorSave(es.response))) == ListScreen
  {
    ResponseEditor.SaveSpec(Render(s).email, es);
    var t := Step(corpus, s, EditorSave(es.response));
    assert t == s.(view := EmailsView);
  }

  // ---------------------------------------------------------------------------
  // Badge colours
  // ---------------------------------------------------------------------------

  const Muted: string := "muted"

  function PriorityColor(priority: string): (r: string)
    ensures r == Muted <==> ParsePriority(priority).None?
  {
    if priority == "urgent" then "urgent"
    else if priority == "high" then "priority-high"
    else if priority == "medium" then "priority-medium"
    else if priority == "low" then "priority-low"
    else Muted
  }

  function SentimentColor(sentiment: string): (r: string)
    ensures r == Muted <==> ParseSentiment(sentiment).None?
  {
    if sentiment == "positive" then "sentiment-positive"
    else if sentiment == "neutral" then "sentiment-neutral"
    else if sentiment == "negative" then "sentiment-negative"
    else Muted
  }

  /** Distinct priorities get distinct colour classes, none of them muted. */
  lemma PriorityColorInjective(p: Priority, q: Priority)
    ensures PriorityColor(PriorityName(p)) != Muted
    ensures PriorityColor(PriorityName(p)) == PriorityColor(PriorityName(q)) <==> p == q
  {
  }

  lemma SentimentColorInjective(a: Sentiment, b: Sentiment)
    ensures SentimentColor(SentimentName(a)) != Muted
    ensures SentimentColor(SentimentName(a)) == SentimentColor(SentimentName(b)) <==> a == b
  {
  }

  // ---------------------------------------------------------------------------
  // Chart series
  // ---------------------------------------------------------------------------

  datatype ChartDatum = ChartDatum(name: string, value: int, color: Option<string>)

  const PositiveColor: string := "hsl(var(--positive))"
  const NeutralColor: string := "hsl(var(--neutral))"
  const NegativeColor: string := "hsl(var(--negative))"

  /** The bar chart: an urgent bar and a non-urgent bar, whose heights
      together are the urgent and non-urgent counts. */
  function PriorityData(a: Analytics): (r: seq<ChartDatum>)
    ensures |r| == 2 && r[0].name == "Urgent" && r[1].name == "Non-Urgent"
    ensures Total(r) == a.urgentCount + a.nonUrgentCount
  {
    var r := [ ChartDatum("Urgent", a.urgentCount, None),
               ChartDatum("Non-Urgent", a.nonUrgentCount, None) ];
    assert Total(r) == r[0].value + Total(r[1..]);
    assert Total(r[1..]) == r[1].value + Total(r[2..]);
    r
  }

  /** The pie chart: one slice per sentiment, in three distinct colours, the
      slices together making up the whole breakdown. */
  function SentimentData(a: Analytics): (r: seq<ChartDatum>)
    ensures |r| == 3 && r[0].name == "Positive" && r[1].name == "Neutral" && r[2].name == "Negative"
    ensures Total(r) == a.sentimentBreakdown.positive + a.sentimentBreakdown.neutral
                      + a.sentimentBreakdown.negative
    ensures forall i, j :: 0 <= i < j < |r| ==> r[i].color.Some? && r[i].color != r[j].color
  {
    var r := [ ChartDatum("Positive", a.sentimentBreakdown.positive, Some(PositiveColor)),
               ChartDatum("Neutral", a.sentimentBreakdown.neutral, Some(NeutralColor)),
               ChartDatum("Negative", a.sentimentBreakdown.negative, Some(NegativeColor)) ];
    assert Total(r) == r[0].value + Total(r[1..]);
    assert Total(r[1..]) == r[1].value + Total(r[2..]);
    assert Total(r[2..]) == r[2].value + Total(r[3..]);
    r
  }

  /** Sum of the values of a chart series. */
  function Total(data: seq<ChartDatum>): int
    decreases |data|
  {
    if data == [] then 0 else data[0].value + Total(data[1..])
  }
}

=== FILE: email_list.dfy ===
/** The query/filter behind the email list: a free-text search over subject,
    sender and body, combined with a priority selector, applied to the list
    without reordering it. */
module EmailList {
  import opened Text
  import opened EmailTypes

  /** The selector buttons, in the order they are rendered. The selector state
      starts at "all" and only ever takes one of these values. */
  const PriorityFilters: seq<string> := ["all", "urgent", "high", "medium", "low"]

  const ShowAll: string := "all"

  /** The search term, lower-cased, occurs in the lower-cased subject, sender
      or body. */
  predicate MatchesSearch(e: Email, term: string) {
    || Contains(Lower(e.subject), Lower(term))
    || Contains(Lower(e.sender), Lower(term))
    || Contains(Lower(e.body), Lower(term))
  }

  /** The selector is "all" or spells the email's priority. */
  predicate MatchesPriority(e: Email, filter: string) {
    filter == ShowAll || PriorityName(e.priority) == filter
  }

  predicate Matches(e: Email, term: string, filter: string) {
    MatchesSearch(e, term) && MatchesPriority(e, filter)
  }

  /** `xs` is `ys` with some elements dropped and the rest kept in order. */
  predicate IsSubsequence<T(==)>(xs: seq<T>, ys: seq<T>)
    decreases |ys|
  {
    if xs == [] then true
    else if ys == [] then false
    else (xs[0] == ys[0] && IsSubsequence(xs[1..], ys[1..])) || IsSubsequence(xs, ys[1..])
  }

  /** `filteredEmails`: the emails that match both the search term and the
      priority selector, in list order. */
  function FilterEmails(emails: seq<Email>, term: string, filter: string): (r: seq<Email>)
    ensures |r| <= |emails|
    ensures forall i :: 0 <= i < |r| ==> Matches(r[i], term, filter)
  {
    if emails == [] then []
    else if Matches(emails[0], term, filter) then [emails[0]] + FilterEmails(emails[1..], term, filter)
    else FilterEmails(emails[1..], term, filter)
  }

  /** The result keeps the list order: it is the list with the non-matching
      emails dropped. */
  lemma {:induction false} FilterIsSubsequence(emails: seq<Email>, term: string, filter: string)
    ensures IsSubsequence(FilterEmails(emails, term, filter), emails)
  {
    if emails != [] {
      var r := FilterEmails(emails, term, filter);
      var rest := FilterEmails(emails[1..], term, filter);
      FilterIsSubsequence(emails[1..], term, filter);
      if Matches(emails[0], term, filter) {
        assert r == [emails[0]] + rest;
        assert r[0] == emails[0] && r[1..] == rest;
      } else {
        assert r == rest;
        if r != [] {
          assert IsSubsequence(r, emails[1..]);
        }
      }
    }
  }

  /** The "No emails found" card is shown exactly when the result is empty. */
  predicate ShowsNoEmailsFound(emails: seq<Email>, term: string, filter: string) {
    |FilterEmails(emails, term, filter)| == 0
  }

  // ---------------------------------------------------------------------------
  // Soundness and completeness
  // ---------------------------------------------------------------------------

  /** Every occurrence of a matching email is kept and no other email is:
      the result holds each email as often as the input does when it matches,
      and not at all when it does not. */
  lemma {:induction false} FilterCounts(emails: seq<Email>, term: string, filter: string, e: Email)
    ensures multiset(FilterEmails(emails, term, filter))[e]
         == if Matches(e, term, filter) then multiset(emails)[e] else 0
  {
    if emails != [] {
      FilterCounts(emails[1..], term, filter, e);
      assert emails == [emails[0]] + emails[1..];
    }
  }

  /** An email is in the result iff it is in the input and matches both the
      search term and the selector. */
  lemma FilterMembership(emails: seq<Email>, term: string, filter: string, e: Email)
    ensures e in FilterEmails(emails, term, filter) <==> e in emails && Matches(e, term, filter)
  {
    FilterCounts(emails, term, filter, e);
  }

  /** Every matching position of the list reaches the result. */
  lemma FilterComplete(emails: seq<Email>, term: string, filter: string)
    ensures forall i :: 0 <= i < |emails| && Matches(emails[i], term, filter)
              ==> emails[i] in FilterEmails(emails, term, filter)
  {
    forall i | 0 <= i < |emails| && Matches(emails[i], term, filter)
      ensures emails[i] in FilterEmails(emails, term, filter)
    {
      FilterMembership(emails, term, filter, emails[i]);
    }
  }

  /** The result is empty, and the "No emails found" card shows, exactly when
      no email in the list matches. */
  lemma NoEmailsFoundIff(emails: seq<Email>, term: string, filter: string)
    ensures ShowsNoEmailsFound(emails, term, filter)
        <==> forall i :: 0 <= i < |emails| ==> !Matches(emails[i], term, filter)
  {
    var r := FilterEmails(emails, term, filter);
    if |r| == 0 {
      FilterComplete(emails, term, filter);
    } else {
      FilterMembership(emails, term, filter, r[0]);
    }
  }

  // ---------------------------------------------------------------------------
  // Algebraic properties
  // ---------------------------------------------------------------------------

  /** Filtering the filtered list again with the same term and selector
      changes nothing. */
  lemma {:induction false} FilterIdempotent(emails: seq<Email>, term: string, filter: string)
    ensures FilterEmails(FilterEmails(emails, term, filter), term, filter)
         == FilterEmails(emails, term, filter)
  {
    if emails != [] {
      FilterIdempotent(emails[1..], term, filter);
      var rest := FilterEmails(emails[1..], term, filter);
      if Matches(emails[0], term, filter) {
        assert ([emails[0]] + rest)[1..] == rest;
      }
    }
  }

  /** Filtering a concatenation filters each part and concatenates the
      results: the order of the list is kept. */
  lemma {:induction false} FilterAppend(xs: seq<Email>, ys: seq<Email>, term: string, filter: string)
    ensures FilterEmails(xs + ys, term, filter)
         == FilterEmails(xs, term, filter) + FilterEmails(ys, term, filter)
    decreases |xs|
  {
    if xs == [] {
      assert xs + ys == ys;
    } else {
      var zs := xs + ys;
      assert zs[0] == xs[0] && zs[1..] == xs[1..] + ys;
      FilterAppend(xs[1..], ys, term, filter);
      var head := if Matches(xs[0], term, filter) then [xs[0]] else [];
      assert FilterEmails(zs, term, filter) == head + FilterEmails(zs[1..], term, filter);
      assert FilterEmails(xs, term, filter) == head + FilterEmails(xs[1..], term, filter);
    }
  }

  /** An empty search term with the "all" selector gives back the list itself. */
  lemma {:induction false} FilterEverything(emails: seq<Email>)
    ensures FilterEmails(emails, "", ShowAll) == emails
  {
    if emails != [] {
      ContainsEmpty(Lower(emails[0].subject));
      FilterEverything(emails[1..]);
      assert emails == [emails[0]] + emails[1..];
    }
  }

  /** Only the lower-cased term matters: two terms that differ in letter case
      select the same emails. */
  lemma {:induction false} FilterCaseInsensitive(emails: seq<Email>, t1: string, t2: string, filter: string)
    requires Lower(t1) == Lower(t2)
    ensures FilterEmails(emails, t1, filter) == FilterEmails(emails, t2, filter)
  {
    if emails != [] {
      FilterCaseInsensitive(emails[1..], t1, t2, filter);
    }
  }

  /** The "all" selector restricts nothing: the result is exactly what the
      search term alone selects. */
  lemma AllSelectorUnrestricted(emails: seq<Email>, term: string, e: Email)
    ensures e in FilterEmails(emails, term, ShowAll) <==> e in emails && MatchesSearch(e, term)
  {
    FilterMembership(emails, term, ShowAll, e);
  }

  /** Any other selector button keeps exactly the searched emails whose
      priority it spells. */
  lemma PrioritySelectorExact(emails: seq<Email>, term: string, p: Priority, e: Email)
    ensures e in FilterEmails(emails, term, PriorityName(p))
        <==> e in emails && MatchesSearch(e, term) && e.priority == p
  {
    FilterMembership(emails, term, PriorityName(p), e);
    PriorityNameInjective(e.priority, p);
  }

  /** The selector buttons are "all" followed by the four priority literals,
      so every button either lifts the restriction or names one priority. */
  lemma PriorityFiltersAreAllAndPriorities(f: string)
    ensures f in PriorityFilters <==> f == ShowAll || ParsePriority(f).Some?
  {
  }
}

=== FILE: email_types.dfy ===
/** The record shapes shared by every component: an `Email` with its
    classification enumerations, and the `Analytics` summary. */
module EmailTypes {

  /** An optional field (`aiResponse?`, `contactInfo?`, `phone?`, ...). */
  datatype Option<+T> = None | Some(value: T) {

    /** The present value, or `default` when the field is absent. This is
        JavaScript's `x || d` whenever the present value is not falsy or is
        `d` itself; an `aiResponse` of "" with default "" qualifies. */
    function GetOr(default: T): T {
      match this
      case Some(v) => v
      case None => default
    }
  }

  /** Severity assigned by the classifier; the application spells these as the
      string literals 'urgent' | 'high' | 'medium' | 'low'. */
  datatype Priority = Urgent | High | Medium | Low

  /** Tone assigned by the classifier: 'positive' | 'neutral' | 'negative'. */
  datatype Sentiment = Positive | Neutral | Negative

  /** `contactInfo`: the address is always there, phone and company each may
      be missing on their own. */
  datatype ContactInfo = ContactInfo(
    email: string,
    phone: Option<string>,
    company: Option<string>)

  /** One support message. `date` keeps the ISO text the record was built
      from; nothing in the modelled logic reads it. */
  datatype Email = Email(
    id: string,
    sender: string,
    subject: string,
    body: string,
    date: string,
    priority: Priority,
    sentiment: Sentiment,
    aiResponse: Option<string>,
    contactInfo: Option<ContactInfo>,
    isRead: Option<bool>,
    tags: seq<string>)

  /** The dashboard summary: a total, an urgent/non-urgent pair, one counter
      per sentiment and the recency count. */
  datatype SentimentBreakdown = SentimentBreakdown(positive: int, neutral: int, negative: int)

  datatype Analytics = Analytics(
    totalEmails: int,
    urgentCount: int,
    nonUrgentCount: int,
    sentimentBreakdown: SentimentBreakdown,
    last24Hours: int)

  // ---------------------------------------------------------------------------
  // The string spelling of the enumerations
  // ---------------------------------------------------------------------------

  function PriorityName(p: Priority): string {
    match p
    case Urgent => "urgent"
    case High => "high"
    case Medium => "medium"
    case Low => "low"
  }

  /** Reads a priority literal back; any other string is not a priority. */
  function ParsePriority(s: string): (r: Option<Priority>)
    ensures r.Some? <==> s in {"urgent", "high", "medium", "low"}
  {
    if s == "urgent" then Some(Urgent)
    else if s == "high" then Some(High)
    else if s == "medium" then Some(Medium)
    else if s == "low" then Some(Low)
    else None
  }

  function SentimentName(s: Sentiment): string {
    match s
    case Positive => "positive"
    case Neutral => "neutral"
    case Negative => "negative"
  }

  function ParseSentiment(s: string): (r: Option<Sentiment>)
    ensures r.Some? <==> s in {"positive", "neutral", "negative"}
  {
    if s == "positive" then Some(Positive)
    else if s == "neutral" then Some(Neutral)
    else if s == "negative" then Some(Negative)
    else None
  }

  /** A priority's literal reads back as that priority, and a string that
      reads as a priority is exactly that priority's literal: the four values
      and their spellings are in one-to-one correspondence. */
  lemma PriorityNameRoundTrip(p: Priority, s: string)
    ensures ParsePriority(PriorityName(p)) == Some(p)
    ensures ParsePriority(s) == Some(p) <==> s == PriorityName(p)
  {
  }

  lemma SentimentNameRoundTrip(v: Sentiment, s: string)
    ensures ParseSentiment(SentimentName(v)) == Some(v)
    ensures ParseSentiment(s) == Some(v) <==> s == SentimentName(v)
  {
  }

  /** The four priority literals are pairwise distinct. */
  lemma PriorityNameInjective(p: Priority, q: Priority)
    ensures PriorityName(p) == PriorityName(q) <==> p == q
  {
  }
}

=== FILE: mock_emails.dfy ===
/** The constant corpus the page is built on and its hard-coded summary,
    with the counts that the summary claims, checked against the corpus. */
module MockEmails {
  import opened Text
  import opened EmailTypes
  import EmailList
  import ResponseEditor
  import EmailDashboard

  const Email1: Email := Email(
    id := "1",
    sender := "sarah.johnson@company.com",
    subject := "Urgent Support Request - System Down",
    body := "Our entire payment system is down and we are losing customers. This is affecting our Black Friday sales. Please help immediately!",
    date := "2024-01-15T09:30:00",
    priority := Urgent,
    sentiment := Negative,
    aiResponse := Some("Hello Sarah,\n\nI understand the urgency of your payment system issue, especially during Black Friday. I'm immediately escalating this to our emergency response team.\n\nIn the meantime, please:\n1. Check if the issue is isolated to specific payment methods\n2. Verify your API key status in your dashboard\n3. Send us any error codes you're seeing\n\nOur senior engineer will contact you within 15 minutes.\n\nBest regards,\nSupport Team"),
    contactInfo := Some(ContactInfo(
      email := "sarah.johnson@company.com",
      phone := Some("+1-555-0123"),
      company := Some("E-commerce Plus"))),
    isRead := None,
    tags := ["payment", "system-down", "urgent"])

  /** The subject of record "2", the one record whose subject mentions the API. */
  const ApiSubject: string := "Help with API Integration Query"

  const Email2: Email := Email(
    id := "2",
    sender := "mike.davis@startup.io",
    subject := ApiSubject,
    body := "Hi team, I'm having some trouble integrating your API with our mobile app. The documentation mentions webhook setup but I'm not sure about the authentication process. Could you provide some guidance?",
    date := "2024-01-15T08:15:00",
    priority := Medium,
    sentiment := Neutral,
    aiResponse := Some("Hi Mike,\n\nThank you for reaching out about the API integration. I'd be happy to help you with the webhook authentication process.\n\nFor webhook setup:\n1. Generate your webhook secret in the developer dashboard\n2. Use HMAC-SHA256 for signature verification\n3. Include the timestamp header to prevent replay attacks\n\nI'll send you our detailed integration guide with code examples. Would you like to schedule a quick call to walk through the setup?\n\nBest regards,\nDeveloper Relations Team"),
    contactInfo := Some(ContactInfo(
      email := "mike.davis@startup.io",
      phone := None,
      company := Some("TechStart Solutions"))),
    isRead := None,
    tags := ["api", "integration", "webhooks"])

  const Email3: Email := Email(
    id := "3",
    sender := "lisa.chen@enterprise.com",
    subject := "Feature Request - Bulk Data Export",
    body := "Hello! We love using your platform and would like to request a feature for bulk data export. Our compliance team needs to export large datasets monthly for auditing purposes. Is this something you could implement?",
    date := "2024-01-15T07:45:00",
    priority := Low,
    sentiment := Positive,
    aiResponse := Some("Hello Lisa,\n\nThank you for the positive feedback and for using our platform! I'm excited to hear about your bulk data export needs.\n\nGood news - we're actually working on an enterprise-grade export feature that should meet your compliance requirements. It's currently in beta testing.\n\nI'd love to:\n1. Add you to our beta program\n2. Understand your specific export requirements\n3. Schedule a demo of the new features\n\nWould next week work for a brief call to discuss this further?\n\nBest regards,\nProduct Team"),
    contactInfo := Some(ContactInfo(
      email := "lisa.chen@enterprise.com",
      phone := None,
      company := Some("Enterprise Corp"))),
    isRead := None,
    tags := ["feature-request", "bulk-export", "compliance"])

  const Email4: Email := Email(
    id := "4",
    sender := "alex.rodriguez@freelance.com",
    subject := "Support Query - Account Access Issue",
    body := "I can't access my account since yesterday. I keep getting an error message when trying to log in. This is really frustrating as I have a project deadline coming up.",
    date := "2024-01-15T10:20:00",
    priority := High,
    sentiment := Negative,
    aiResponse := Some("Hi Alex,\n\nI apologize for the login issues you're experiencing, especially with your project deadline approaching. Let me help resolve this quickly.\n\nI've checked your account and noticed some unusual activity that triggered our security measures. I'm going to:\n1. Reset your account access immediately\n2. Send you a secure login link via email\n3. Provide you with additional security recommendations\n\nYou should receive the login link within 5 minutes. If you continue having issues, please reply immediately.\n\nBest regards,\nSecurity & Support Team"),
    contactInfo := Some(ContactInfo(
      email := "alex.rodriguez@freelance.com",
      phone := None,
      company := None)),
    isRead := None,
    tags := ["account-access", "login-error"])

  const Email5: Email := Email(
    id := "5",
    sender := "jennifer.white@startup.com",
    subject := "Request for Demo and Pricing Information",
    body := "Hi there! We're a growing startup and are interested in your enterprise solution. Could you provide us with a demo and information about your pricing tiers? We're particularly interested in the team collaboration features.",
    date := "2024-01-14T16:30:00",
    priority := Medium,
    sentiment := Positive,
    aiResponse := Some("Hi Jennifer,\n\nThank you for your interest in our enterprise solution! I'm thrilled to hear from a growing startup like Innovation Labs.\n\nI'd be delighted to:\n1. Schedule a personalized demo focusing on team collaboration features\n2. Provide you with startup-friendly pricing options\n3. Connect you with our customer success team\n\nFor startups, we offer special discounts and flexible payment terms. When would be a good time for a 30-minute demo call this week?\n\nLooking forward to working together!\n\nBest regards,\nSales Team"),
    contactInfo := Some(ContactInfo(
      email := "jennifer.white@startup.com",
      phone := None,
      company := Some("Innovation Labs"))),
    isRead := None,
    tags := ["demo-request", "pricing", "enterprise"])

  /** `mockEmails`, in the order the page lists them. */
  const MockEmails: seq<Email> := [Email1, Email2, Email3, Email4, Email5]

  /** `mockAnalytics`: written by hand, not computed from the corpus. */
  const MockAnalytics: Analytics := Analytics(
    totalEmails := 5,
    urgentCount := 1,
    nonUrgentCount := 4,
    sentimentBreakdown := SentimentBreakdown(positive := 2, neutral := 1, negative := 2),
    last24Hours := 4)

  // ---------------------------------------------------------------------------
  // The counts the summary stands for
  // ---------------------------------------------------------------------------

  /** Number of emails with priority `p`. */
  function CountPriority(emails: seq<Email>, p: Priority): (n: nat)
    ensures n <= |emails|
    decreases |emails|
  {
    if emails == [] then 0
    else (if emails[0].priority == p then 1 else 0) + CountPriority(emails[1..], p)
  }

  /** Number of emails whose priority is not `p`. */
  function CountOtherPriority(emails: seq<Email>, p: Priority): (n: nat)
    ensures n <= |emails|
    decreases |emails|
  {
    if emails == [] then 0
    else (if emails[0].priority != p then 1 else 0) + CountOtherPriority(emails[1..], p)
  }

  /** Number of emails with sentiment `v`. */
  function CountSentiment(emails: seq<Email>, v: Sentiment): (n: nat)
    ensures n <= |emails|
    decreases |emails|
  {
    if emails == [] then 0
    else (if emails[0].sentiment == v then 1 else 0) + CountSentiment(emails[1..], v)
  }

  /** The dashboard's count of a priority is the number of emails the list
      shows under that priority's button with an empty search. */
  lemma {:induction false} PriorityCountIsButtonCount(emails: seq<Email>, p: Priority)
    ensures CountPriority(emails, p) == |EmailList.FilterEmails(emails, "", PriorityName(p))|
    decreases |emails|
  {
    if emails != [] {
      PriorityCountIsButtonCount(emails[1..], p);
      assert Lower("") == "";
      ContainsEmpty(Lower(emails[0].subject));
      PriorityNameInjective(emails[0].priority, p);
    }
  }

  /** A summary agrees with a corpus when its total, its urgent/non-urgent
      pair and its three sentiment counters are the corpus's counts. The
      recency counter depends on the current time and is not compared. */
  predicate Consistent(a: Analytics, emails: seq<Email>) {
    && a.totalEmails == |emails|
    && a.urgentCount == CountPriority(emails, Urgent)
    && a.nonUrgentCount == CountOtherPriority(emails, Urgent)
    && a.sentimentBreakdown.positive == CountSentiment(emails, Positive)
    && a.sentimentBreakdown.neutral == CountSentiment(emails, Neutral)
    && a.sentimentBreakdown.negative == CountSentiment(emails, Negative)
  }

  /** For any corpus, the emails with and without priority `p` together are
      all of it. */
  lemma {:induction false} PriorityPartition(emails: seq<Email>, p: Priority)
    ensures CountPriority(emails, p) + CountOtherPriority(emails, p) == |emails|
    decreases |emails|
  {
    if emails != [] {
      PriorityPartition(emails[1..], p);
    }
  }

  /** For any corpus, the three sentiment counts add up to its size. */
  lemma {:induction false} SentimentPartition(emails: seq<Email>)
    ensures CountSentiment(emails, Positive) + CountSentiment(emails, Neutral)
          + CountSentiment(emails, Negative) == |emails|
    decreases |emails|
  {
    if emails != [] {
      SentimentPartition(emails[1..]);
    }
  }

  /** A consistent summary's two charts each add up to the total. */
  lemma ConsistentChartsSumToTotal(a: Analytics, emails: seq<Email>)
    requires Consistent(a, emails)
    ensures EmailDashboard.Total(EmailDashboard.PriorityData(a)) == a.totalEmails
    ensures EmailDashboard.Total(EmailDashboard.SentimentData(a)) == a.totalEmails
  {
    PriorityPartition(emails, Urgent);
    SentimentPartition(emails);
  }

  /** Under a consistent summary each bar and slice shows its own count over
      the corpus: the Urgent bar the urgent emails, the Non-Urgent bar the
      rest, and each sentiment's slice, in that sentiment's colour, the
      emails of that sentiment. */
  lemma ChartEntriesShowCounts(a: Analytics, emails: seq<Email>)
    requires Consistent(a, emails)
    ensures EmailDashboard.PriorityData(a)[0].value == CountPriority(emails, Urgent)
    ensures EmailDashboard.PriorityData(a)[1].value == CountOtherPriority(emails, Urgent)
    ensures EmailDashboard.SentimentData(a)[0].value == CountSentiment(emails, Positive)
    ensures EmailDashboard.SentimentData(a)[1].value == CountSentiment(emails, Neutral)
    ensures EmailDashboard.SentimentData(a)[2].value == CountSentiment(emails, Negative)
    ensures EmailDashboard.SentimentData(a)[0].color == Some(EmailDashboard.PositiveColor)
    ensures EmailDashboard.SentimentData(a)[1].color == Some(EmailDashboard.NeutralColor)
    ensures EmailDashboard.SentimentData(a)[2].color == Some(EmailDashboard.NegativeColor)
  {
  }

  // ---------------------------------------------------------------------------
  // Facts about the constant corpus
  // ---------------------------------------------------------------------------

  /** Counting over a five-element list, one record at a time. */
  lemma CountFive(a: Email, b: Email, c: Email, d: Email, e: Email, p: Priority, v: Sentiment)
    ensures CountPriority([a, b, c, d, e], p)
         == (if a.priority == p then 1 else 0) + (if b.priority == p then 1 else 0)
          + (if c.priority == p then 1 else 0) + (if d.priority == p then 1 else 0)
          + (if e.priority == p then 1 else 0)
    ensures CountOtherPriority([a, b, c, d, e], p) == 5 - CountPriority([a, b, c, d, e], p)
    ensures CountSentiment([a, b, c, d, e], v)
         == (if a.sentiment == v then 1 else 0) + (if b.sentiment == v then 1 else 0)
          + (if c.sentiment == v then 1 else 0) + (if d.sentiment == v then 1 else 0)
          + (if e.sentiment == v then 1 else 0)
  {
    var s := [a, b, c, d, e];
    assert s[1..] == [b, c, d, e];
    assert s[1..][1..] == [c, d, e];
    assert s[1..][1..][1..] == [d, e];
    assert s[1..][1..][1..][1..] == [e];
    assert CountPriority([d, e], p) == (if d.priority == p then 1 else 0) + CountPriority([e], p);
    assert CountPriority([c, d, e], p) == (if c.priority == p then 1 else 0) + CountPriority([d, e], p);
    assert CountPriority([b, c, d, e], p) == (if b.priority == p then 1 else 0) + CountPriority([c, d, e], p);
    assert CountSentiment([d, e], v) == (if d.sentiment == v then 1 else 0) + CountSentiment([e], v);
    assert CountSentiment([c, d, e], v) == (if c.sentiment == v then 1 else 0) + CountSentiment([d, e], v);
    assert CountSentiment([b, c, d, e], v) == (if b.sentiment == v then 1 else 0) + CountSentiment([c, d, e], v);
    PriorityPartition(s, p);
  }

  /** The hard-coded summary matches the corpus it sits next to. */
  lemma MockAnalyticsConsistent()
    ensures Consistent(MockAnalytics, MockEmails)
    ensures MockAnalytics.urgentCount + MockAnalytics.nonUrgentCount == MockAnalytics.totalEmails
    ensures EmailDashboard.Total(EmailDashboard.PriorityData(MockAnalytics)) == MockAnalytics.totalEmails
    ensures EmailDashboard.Total(EmailDashboard.SentimentData(MockAnalytics)) == MockAnalytics.totalEmails
  {
    CountFive(Email1, Email2, Email3, Email4, Email5, Urgent, Positive);
    CountFive(Email1, Email2, Email3, Email4, Email5, Urgent, Neutral);
    CountFive(Email1, Email2, Email3, Email4, Email5, Urgent, Negative);
    ConsistentChartsSumToTotal(MockAnalytics, MockEmails);
  }

  /** Five records with the ids "1" to "5", pairwise distinct. */
  lemma MockEmailIds()
    ensures |MockEmails| == 5
    ensures forall i :: 0 <= i < |MockEmails| ==> MockEmails[i].id == ["1", "2", "3", "4", "5"][i]
    ensures forall i, j :: 0 <= i < j < |MockEmails| ==> MockEmails[i].id != MockEmails[j].id
  {
  }

  /** Every record carries a non-empty draft and contact details whose address
      is the sender, so the editor opens on a draft that can be copied. */
  lemma MockEmailDrafts()
    ensures forall e :: e in MockEmails ==>
      && e.aiResponse.Some? && e.aiResponse.value != ""
      && e.contactInfo.Some? && e.contactInfo.value.email == e.sender
      && ResponseEditor.CopyEnabled(ResponseEditor.Init(e))
  {
  }

  /** The dashboard previews the first three records. */
  lemma MockPreview()
    ensures EmailDashboard.Preview(MockEmails) == [Email1, Email2, Email3]
  {
  }

  /** Filtering a five-element list, one record at a time. */
  lemma FilterFive(a: Email, b: Email, c: Email, d: Email, e: Email, term: string, filter: string)
    ensures EmailList.FilterEmails([a, b, c, d, e], term, filter)
         == Keep(a, term, filter) + (Keep(b, term, filter) + (Keep(c, term, filter)
          + (Keep(d, term, filter) + Keep(e, term, filter))))
  {
    assert [a, b, c, d, e] == [a] + [b, c, d, e];
    assert [b, c, d, e] == [b] + [c, d, e];
    assert [c, d, e] == [c] + [d, e];
    assert [d, e] == [d] + [e];
    assert [e] == [e] + [];
    FilterCons(e, [], term, filter);
    FilterCons(d, [e], term, filter);
    FilterCons(c, [d, e], term, filter);
    FilterCons(b, [c, d, e], term, filter);
    FilterCons(a, [b, c, d, e], term, filter);
    assert Keep(e, term, filter) + [] == Keep(e, term, filter);
  }

  /** The one-element contribution of `x` to a filter result. */
  function Keep(x: Email, term: string, filter: string): seq<Email> {
    if EmailList.Matches(x, term, filter) then [x] else []
  }

  lemma FilterCons(x: Email, rest: seq<Email>, term: string, filter: string)
    ensures EmailList.FilterEmails([x] + rest, term, filter)
         == Keep(x, term, filter) + EmailList.FilterEmails(rest, term, filter)
  {
    assert ([x] + rest)[1..] == rest;
  }

  /** The "urgent" button with an empty search shows record "1" alone. */
  lemma UrgentFilterOnMock()
    ensures EmailList.FilterEmails(MockEmails, "", "urgent") == [Email1]
  {
    FilterFive(Email1, Email2, Email3, Email4, Email5, "", "urgent");
    assert Lower("") == "";
    ContainsEmpty(Lower(Email1.subject));
  }

  /** Searching "api" under the "all" button finds record "2" through its
      subject, "Help with API Integration Query". */
  lemma ApiSearchFindsRecord2()
    ensures Email2 in EmailList.FilterEmails(MockEmails, "api", EmailList.ShowAll)
  {
    assert ApiSubject[10..13] == "API";
    LowerKeepsOccurrence(ApiSubject, "API", 10);
    assert Lower("API") == "api" == Lower("api");
    EmailList.FilterMembership(MockEmails, "api", EmailList.ShowAll, Email2);
  }
}

=== FILE: response_editor.dfy ===
/** The response editor: the draft text and the "generating" flag, the events
    that change them, and the guards that enable each control. The timed
    regeneration is two discrete events: the click that starts it and the
    timer callback that finishes it. */
module ResponseEditor {
  import opened Text
  import opened EmailTypes

  datatype EditorState = EditorState(response: string, isGenerating: bool)

  /** What a control hands to the outside world. */
  datatype Effect =
    | NoEffect
    | Copied(text: string)      // written to the clipboard
    | Saved(response: string)   // passed to the `onSave` callback

  datatype Event =
    | Edit(text: string)        // a change in the textarea
    | StartRegenerate           // the Regenerate button
    | FinishRegenerate          // the pending timer firing
    | Copy                      // the Copy button
    | Save                      // the Send Response button

  /** The editor opens on the stored draft, or on the empty text when the
      email has none, and is not generating. */
  function Init(email: Email): (s: EditorState)
    ensures !s.isGenerating
    ensures email.aiResponse.Some? ==> s.response == email.aiResponse.value
    ensures email.aiResponse.None? ==> s.response == ""
  {
    EditorState(email.aiResponse.GetOr(""), false)
  }

  // ---------------------------------------------------------------------------
  // Control guards
  // ---------------------------------------------------------------------------

  /** Copy is disabled when the response is the empty string. */
  predicate CopyEnabled(s: EditorState) {
    s.response != ""
  }

  predicate RegenerateEnabled(s: EditorState) {
    !s.isGenerating
  }

  predicate TextareaEnabled(s: EditorState) {
    !s.isGenerating
  }

  /** Send is disabled when the trimmed response is empty or while generating. */
  predicate SendEnabled(s: EditorState) {
    HasContent(s.response) && !s.isGenerating
  }

  /** The "N characters" counter under the textarea. */
  function CharCount(s: EditorState): nat {
    |s.response|
  }

  // ---------------------------------------------------------------------------
  // Regeneration template
  // ---------------------------------------------------------------------------

  const Greeting: string := "Hello "

  const ThanksLead: string := "\n\nThank you for contacting our support team regarding "

  const Closing: string :=
    ". I understand your concern and I'm here to help.\n\n"
    + "[AI-generated response would be more specific based on the email content]\n\n"
    + "Please let me know if you need any further assistance.\n\nBest regards,\nSupport Team"

  /** The subject between double quotes, as the template quotes it. */
  function Quoted(subject: string): string {
    "\"" + subject + "\""
  }

  /** The text the timer callback installs: a greeting to the sender's local
      part, the quoted subject, and a fixed closing. */
  function RegeneratedResponse(email: Email): (r: string)
    ensures Greeting + LocalPart(email.sender) + "," <= r
    ensures OccursAt(r, Quoted(email.subject), |Greeting| + |LocalPart(email.sender)| + 1 + |ThanksLead|)
    ensures Contains(r, Quoted(email.subject))
    ensures HasContent(r)
  {
    var lp := LocalPart(email.sender);
    assert Greeting[0] == 'H';
    TemplateShape(Greeting, lp, ThanksLead, Quoted(email.subject), Closing);
    Greeting + lp + "," + ThanksLead + Quoted(email.subject) + Closing
  }

  /** The shape of the template, stated for any greeting, lead-in and
      closing: the greeting line is a prefix, the quoted subject sits right
      after the lead-in, and a greeting that starts with a visible character
      gives the whole text content. */
  lemma TemplateShape(greeting: string, lp: string, lead: string, quoted: string, closing: string)
    requires greeting != [] && !IsJsWhitespace(greeting[0])
    ensures greeting + lp + "," <= greeting + lp + "," + lead + quoted + closing
    ensures OccursAt(greeting + lp + "," + lead + quoted + closing, quoted, |greeting| + |lp| + 1 + |lead|)
    ensures Contains(greeting + lp + "," + lead + quoted + closing, quoted)
    ensures HasContent(greeting + lp + "," + lead + quoted + closing)
  {
    var head := greeting + lp + ",";
    var r := head + lead + quoted + closing;
    var k := |head| + |lead|;
    assert r == head + (lead + quoted + closing);
    assert r[k..k + |quoted|] == quoted;
    ContainsFromOccurrence(r, quoted, k);
    assert r[0] == greeting[0];
    HasContentAt(r, 0);
  }

  // ---------------------------------------------------------------------------
  // Transitions
  // ---------------------------------------------------------------------------

  /** One event: the new state and what it hands outside. A control that is
      disabled ignores its event; the timer fires only while a regeneration
      is pending, which is exactly while `isGenerating` holds. */
  function Step(email: Email, s: EditorState, ev: Event): (r: (EditorState, Effect))
    ensures !ev.FinishRegenerate? && !ev.Edit? ==> r.0.response == s.response
    ensures r.1.Saved? ==> SendEnabled(s) && r.1.response == s.response
    ensures r.1.Copied? ==> r.1.text == s.response && s.response != ""
  {
    match ev
    case Edit(text) =>
      if TextareaEnabled(s) then (s.(response := text), NoEffect) else (s, NoEffect)
    case StartRegenerate =>
      if RegenerateEnabled(s) then (s.(isGenerating := true), NoEffect) else (s, NoEffect)
    case FinishRegenerate =>
      if s.isGenerating then (EditorState(RegeneratedResponse(email), false), NoEffect)
      else (s, NoEffect)
    case Copy =>
      if CopyEnabled(s) then (s, Copied(s.response)) else (s, NoEffect)
    case Save =>
      if SendEnabled(s) then (s, Saved(s.response)) else (s, NoEffect)
  }

  /** The state after a sequence of events. */
  function Run(email: Email, s: EditorState, evs: seq<Event>): EditorState
    decreases |evs|
  {
    if evs == [] then s else Run(email, Step(email, s, evs[0]).0, evs[1..])
  }

  // ---------------------------------------------------------------------------
  // Properties
  // ---------------------------------------------------------------------------

  /** A missing draft and an empty draft are different records but open the
      editor the same way, with Copy and Send disabled. */
  lemma InitWithoutDraft(email: Email)
    requires email.aiResponse == None || email.aiResponse == Some("")
    ensures Init(email) == EditorState("", false)
    ensures !CopyEnabled(Init(email)) && !SendEnabled(Init(email))
  {
    assert Trim("") == "";
  }

  /** Start is honoured only when idle, and then turns generation on without
      touching the text. */
  lemma StartRegenerateSpec(email: Email, s: EditorState)
    ensures var t := Step(email, s, StartRegenerate).0;
      t.isGenerating && t.response == s.response
      && (s.isGenerating ==> t == s)
  {
  }

  /** Start followed by the timer replaces the text by the template and ends
      generation, after which the reply can be sent. */
  lemma RegenerateRoundTrip(email: Email, s: EditorState)
    requires !s.isGenerating
    ensures var t := Run(email, s, [StartRegenerate, FinishRegenerate]);
      t == EditorState(RegeneratedResponse(email), false) && SendEnabled(t)
  {
    var s1 := Step(email, s, StartRegenerate).0;
    assert Run(email, s, [StartRegenerate, FinishRegenerate])
        == Run(email, s1, [FinishRegenerate]);
  }

  /** While a regeneration is pending, no sequence of edits, clicks, copies or
      saves changes the text or ends the generation; only the timer does. */
  lemma {:induction false} GeneratingFreezesResponse(email: Email, s: EditorState, evs: seq<Event>)
    requires s.isGenerating
    requires forall i :: 0 <= i < |evs| ==> evs[i] != FinishRegenerate
    ensures Run(email, s, evs) == s
    decreases |evs|
  {
    if evs != [] {
      assert Step(email, s, evs[0]).0 == s;
      GeneratingFreezesResponse(email, s, evs[1..]);
    }
  }

  /** An edit while idle installs the typed text, and the counter shows its
      length. */
  lemma EditWhileIdle(email: Email, s: EditorState, text: string)
    requires !s.isGenerating
    ensures Step(email, s, Edit(text)).0 == EditorState(text, false)
    ensures CharCount(Step(email, s, Edit(text)).0) == |text|
  {
  }

  /** Send is enabled exactly when the text has a non-whitespace character and
      no regeneration is pending. */
  lemma SendEnabledIff(s: EditorState)
    ensures SendEnabled(s)
        <==> !s.isGenerating && exists i :: 0 <= i < |s.response| && !IsJsWhitespace(s.response[i])
  {
    TrimEmptyIff(s.response);
  }

  /** Save passes the current text to the callback unchanged and leaves the
      editor as it was; a disabled Send does nothing. */
  lemma SaveSpec(email: Email, s: EditorState)
    ensures Step(email, s, Save) == (s, if SendEnabled(s) then Saved(s.response) else NoEffect)
    ensures Step(email, s, Save).1.Saved? ==> Trim(s.response) != ""
  {
  }

  /** An enabled Copy hands the current text to the clipboard and leaves the
      editor as it was; a disabled Copy does nothing. */
  lemma CopySpec(email: Email, s: EditorState)
    ensures Step(email, s, Copy) == (s, if CopyEnabled(s) then Copied(s.response) else NoEffect)
  {
  }

  /** A whitespace-only reply can be copied but not sent; any sendable reply
      can be copied. */
  lemma CopyVersusSend(s: EditorState)
    ensures SendEnabled(s) ==> CopyEnabled(s)
    ensures s.response != "" && (forall i :: 0 <= i < |s.response| ==> IsJsWhitespace(s.response[i]))
        ==> CopyEnabled(s) && !SendEnabled(s)
  {
    TrimEmptyIff(s.response);
  }

  /** The greeting names the sender's local part: the text before the first
      '@', or the whole sender when it has no '@'. */
  lemma GreetingLocalPart(email: Email)
    ensures '@' !in email.sender ==> Greeting + email.sender + "," <= RegeneratedResponse(email)
    ensures forall k ::
      (0 <= k < |email.sender| && email.sender[k] == '@' && '@' !in email.sender[..k])
        ==> Greeting + email.sender[..k] + "," <= RegeneratedResponse(email)
  {
    if '@' !in email.sender {
      LocalPartWithoutAt(email.sender);
    }
    forall k | 0 <= k < |email.sender| && email.sender[k] == '@' && '@' !in email.sender[..k]
      ensures Greeting + email.sender[..k] + "," <= RegeneratedResponse(email)
    {
      LocalPartBeforeFirstAt(email.sender, k);
    }
  }
}

=== FILE: text.dfy ===
/** String helpers standing in for the JavaScript string methods the components
    use: `toLowerCase`, `includes`, `trim` and `split('@')[0]`. Strings are
    sequences of `char`. */
module Text {

  // ---------------------------------------------------------------------------
  // Lower-casing (String.prototype.toLowerCase, ASCII letters only)
  // ---------------------------------------------------------------------------

  predicate IsUpper(c: char) {
    'A' <= c <= 'Z'
  }

  /** Folds an upper-case ASCII letter to the lower-case letter at the same
      place in the alphabet and leaves every other character alone. */
  function LowerChar(c: char): (r: char)
    ensures !IsUpper(r)
    ensures IsUpper(c) ==> 'a' <= r <= 'z' && r as int - 'a' as int == c as int - 'A' as int
    ensures !IsUpper(c) ==> r == c
  {
    if IsUpper(c) then (c as int + 32) as char else c
  }

  /** The lower-cased copy of `s`: every upper-case letter becomes the
      lower-case letter at the same place in the alphabet, and every other
      character is kept in place. */
  function Lower(s: string): (r: string)
    ensures |r| == |s|
    ensures forall i :: 0 <= i < |r| ==> !IsUpper(r[i])
    ensures forall i :: 0 <= i < |s| && !IsUpper(s[i]) ==> r[i] == s[i]
    ensures forall i :: 0 <= i < |s| && IsUpper(s[i])
              ==> 'a' <= r[i] <= 'z' && r[i] as int - 'a' as int == s[i] as int - 'A' as int
  {
    seq(|s|, i requires 0 <= i < |s| => LowerChar(s[i]))
  }

  /** Lower-casing twice is lower-casing once, and a text with no upper-case
      letter is its own lower-cased form. */
  lemma LowerIdempotent(s: string)
    ensures Lower(Lower(s)) == Lower(s)
    ensures (forall i :: 0 <= i < |s| ==> !IsUpper(s[i])) ==> Lower(s) == s
  {
  }

  // ---------------------------------------------------------------------------
  // Substring search (String.prototype.includes)
  // ---------------------------------------------------------------------------

  /** `needle` occurs in `hay` starting at index `i`. */
  predicate OccursAt(hay: string, needle: string, i: int) {
    0 <= i && i + |needle| <= |hay| && hay[i..i + |needle|] == needle
  }

  /** `hay.includes(needle)`: scans the start positions left to right. */
  predicate Contains(hay: string, needle: string): (found: bool)
    ensures found ==> |needle| <= |hay|
    decreases |hay|
  {
    needle <= hay || (hay != [] && Contains(hay[1..], needle))
  }

  /** The scan agrees with the declarative definition: some start index. */
  lemma ContainsIff(hay: string, needle: string)
    ensures Contains(hay, needle) <==> exists i :: OccursAt(hay, needle, i)
  {
    if Contains(hay, needle) {
      var i := ContainsWitness(hay, needle);
    }
    forall i | OccursAt(hay, needle, i)
      ensures Contains(hay, needle)
    {
      ContainsFromOccurrence(hay, needle, i);
    }
  }

  /** A successful scan stops at a start index where the needle occurs. */
  lemma {:induction false} ContainsWitness(hay: string, needle: string) returns (i: int)
    requires Contains(hay, needle)
    ensures OccursAt(hay, needle, i)
    decreases |hay|
  {
    if needle <= hay {
      i := 0;
    } else {
      var j := ContainsWitness(hay[1..], needle);
      assert hay[1..][j..j + |needle|] == hay[j + 1..j + 1 + |needle|];
      i := j + 1;
    }
  }

  /** The scan reaches every start index where the needle occurs. */
  lemma {:induction false} ContainsFromOccurrence(hay: string, needle: string, i: int)
    requires OccursAt(hay, needle, i)
    ensures Contains(hay, needle)
    decreases i
  {
    if i > 0 {
      assert hay[1..][i - 1..i - 1 + |needle|] == hay[i..i + |needle|];
      ContainsFromOccurrence(hay[1..], needle, i - 1);
    }
  }

  /** Every string includes the empty string. */
  lemma {:induction false} ContainsEmpty(hay: string)
    ensures Contains(hay, "")
  {
    assert [] <= hay;
  }

  // ---------------------------------------------------------------------------
  // Trimming (String.prototype.trim)
  // ---------------------------------------------------------------------------

  /** The characters ECMAScript's `trim` strips: WhiteSpace (tab, vertical tab,
      form feed, space, no-break space, byte-order mark and the Zs separators)
      and LineTerminator (line feed, carriage return, U+2028, U+2029). */
  predicate IsJsWhitespace(c: char) {
    || c == '\t' || c == '\U{000B}' || c == '\U{000C}' || c == ' '
    || c == '\U{00A0}' || c == '\U{FEFF}' || c == '\U{1680}'
    || ('\U{2000}' <= c <= '\U{200A}')
    || c == '\U{202F}' || c == '\U{205F}' || c == '\U{3000}'
    || c == '\n' || c == '\r' || c == '\U{2028}' || c == '\U{2029}'
  }

  function TrimStart(s: string): (r: string)
    ensures |r| <= |s|
    ensures r == s[|s| - |r|..]
    ensures r != [] ==> !IsJsWhitespace(r[0])
    ensures forall i :: 0 <= i < |s| - |r| ==> IsJsWhitespace(s[i])
  {
    if s != [] && IsJsWhitespace(s[0]) then TrimStart(s[1..]) else s
  }

  function TrimEnd(s: string): (r: string)
    ensures |r| <= |s|
    ensures r == s[..|r|]
    ensures r != [] ==> !IsJsWhitespace(r[|r| - 1])
    ensures forall i :: |r| <= i < |s| ==> IsJsWhitespace(s[i])
  {
    if s != [] && IsJsWhitespace(s[|s| - 1]) then TrimEnd(s[..|s| - 1]) else s
  }

  /** `s.trim()`: the longest infix that neither starts nor ends in whitespace. */
  function Trim(s: string): (r: string)
    ensures r != [] ==> !IsJsWhitespace(r[0]) && !IsJsWhitespace(r[|r| - 1])
    ensures exists k :: OccursAt(s, r, k)
              && (forall i :: 0 <= i < k ==> IsJsWhitespace(s[i]))
              && (forall i :: k + |r| <= i < |s| ==> IsJsWhitespace(s[i]))
  {
    var t := TrimStart(s);
    var r := TrimEnd(t);
    var k := |s| - |t|;
    assert s[k..k + |r|] == t[..|r|];
    assert OccursAt(s, r, k);
    r
  }

  /** `!s.trim()` is false exactly when `s` holds a non-whitespace character. */
  predicate HasContent(s: string) {
    Trim(s) != ""
  }

  lemma TrimEmptyIff(s: string)
    ensures Trim(s) == "" <==> forall i :: 0 <= i < |s| ==> IsJsWhitespace(s[i])
  {
    var t := TrimStart(s);
    if Trim(s) == "" {
      assert |t| == 0;
    } else {
      assert t != [];
      assert !IsJsWhitespace(s[|s| - |t|]);
    }
  }

  /** One visible character is enough for `trim` to leave something. */
  lemma HasContentAt(s: string, i: int)
    requires 0 <= i < |s| && !IsJsWhitespace(s[i])
    ensures HasContent(s)
  {
    TrimEmptyIff(s);
  }

  // ---------------------------------------------------------------------------
  // Local part of an address (`sender.split('@')[0]`)
  // ---------------------------------------------------------------------------

  /** The part of `s` before its first '@', or all of `s` when it has none. */
  function LocalPart(s: string): (r: string)
    ensures r <= s
    ensures '@' !in r
    ensures |r| < |s| ==> s[|r|] == '@'
  {
    if s == [] || s[0] == '@' then [] else [s[0]] + LocalPart(s[1..])
  }


  /** With no '@' the whole string is the local part. */
  lemma LocalPartWithoutAt(s: string)
    requires '@' !in s
    ensures LocalPart(s) == s
  {
  }

  /** With an '@' the local part is exactly the text before the first one. */
  lemma LocalPartBeforeFirstAt(s: string, k: int)
    requires 0 <= k < |s| && s[k] == '@' && '@' !in s[..k]
    ensures LocalPart(s) == s[..k]
  {
  }

  /** An occurrence of a word in the text is an occurrence of its lower-cased
      form in the lower-cased text, so a lower-case search finds it. */
  lemma LowerKeepsOccurrence(s: string, word: string, i: nat)
    requires i + |word| <= |s| && s[i..i + |word|] == word
    ensures Contains(Lower(s), Lower(word))
  {
    assert Lower(s)[i..i + |word|] == Lower(word);
    ContainsFromOccurrence(Lower(s), Lower(word), i);
  }
}
